=== FILE: README.md ===
# Auto-clicker main process, modelled in Dafny

The modelled system is an Electron desktop auto-clicker. Its main process
(`index.js`) receives `start-autoclick` and `stop-autoclick` requests from
the window. It drives a repeating timer that performs click cycles through
the robotjs input driver: a single click, a double click or a held button.
The repeat policy is "loop" or "a number of times"; in the second case the
process stops itself and tells the window `autoclick-stopped`. A global F9
shortcut flips a `running` flag and tells the window which way it went. The
process also keeps a settings document (`options.json`), with two mutually
exclusive repeat-mode flags, and writes profiles to a SQLite table.

The model has these modules:

- `Scheduler` holds the module-level variables (`running`, `currentNumber`,
  `isMouseButtonHold`, `holdMouseButton`, `autoClickInterval`) as one
  `State` value. The same state holds the host's table of armed intervals
  (handle to captured request) and the log of everything sent to the input
  driver or the window. Each handler and helper is a transition function.
- `SchedulerProperties` proves what happens over whole runs: counted runs to
  completion, looping, hold, stop, the F9 toggle, idle intervals and
  handle freshness.
- `Process.MainProcess` is the same process as an object. Its fields are the
  module-level variables, and its methods update them step by step in the
  source's order. Each method is proved to leave the object in exactly the
  state the matching `Scheduler` function gives.
- `JsNumber` is `parseInt(repeat)` with no radix. It skips leading white
  space, takes an optional sign and an optional `0x` prefix, then reads the
  longest run of digits. A string with no digits gives NaN.
- `Settings` covers the default document, `saveOptions` (read, modify one
  field, write back) and `convertOptionsFormat`.
- `Statements` covers the SQL text and parameter list built by
  `updateProfileOptions` and `addProfile`, and whether the `?` markers match
  the parameters.
- `Values` is a small model of the JSON/JavaScript values the settings and
  profiles carry, with JavaScript truthiness. `Wrappers` is `Option`, whose
  `None` stands for `undefined`/`null`.

The model follows the code throughout. The lemmas pin down what it does
where it may surprise a reader:

- A hold cycle presses every time it runs; there is no "already holding"
  test. A hold start whose first cycle runs arms no interval, because that
  synchronous cycle sets the hold flag before `startAutoClick` tests it.
  A hold start that self-stops at once (its count equals the counter a
  stopped run left behind) does arm one, and each counted firing of that
  interval presses the button again, with a single release at the end.
- `stop-autoclick` resets neither `currentNumber` nor `running`. A later
  counted start with count `n` therefore depends on the kept counter `c`:
  - below `n`, it runs only the `n - c` cycles left;
  - equal to `n`, it sends `autoclick-stopped` at once, resets the counter,
    then arms an interval that runs all `n` cycles and stops a second time;
  - above `n`, it runs no cycle at all, yet arms an interval that never
    does anything.
- A start while a hold is active runs its cycle with the button still down
  and arms no interval, unless that same call self-stops.
- A second start overwrites the stored interval handle without cancelling
  the interval it named.
- Repeat `0` self-stops at once, after which `startAutoClick` sets `running`
  again and arms an interval.
- `isMouseButtonHold` starts out `undefined` in the source. Every test of it
  (`=== true`, `!`) treats that as `false`, so the model starts it at
  `false`.

## Model

| member | source | states |
|---|---|---|
| Scheduler.RepeatOf | index.js:284-290 | the request's repeat is read as "loop" exactly when it is the string `loop`; otherwise it is the result of `parseInt` |
| Scheduler.Init | index.js:34-281 | the process starts not running, with the counter at 0, no hold, no stored interval handle, no armed interval and nothing sent; handles are fresh |
| JsNumber.TrimStartIsSuffix | index.js:290 | `parseInt` skips exactly the leading white space: the rest is a suffix that does not start with white space, and everything dropped is white space |
| JsNumber.LeadingDigitsIsLongestRun | index.js:290 | the digits read form the longest prefix made only of digits of the radix |
| JsNumber.DigitValue | index.js:290 | a character's digit value is below 10 exactly for `0`-`9` and never above 36 |
| JsNumber.ParseDecimal | index.js:290 | `parseInt` reads back the decimal numeral of every natural number, also when a non-alphanumeric tail follows |
| JsNumber.ParseNegativeDecimal | index.js:290 | `parseInt` reads back a minus sign in front of a numeral as the negative number |
| JsNumber.NoDigitIsNaN | index.js:290 | a repeat with no decimal digit is NaN |
| SchedulerProperties.CycleOutput | index.js:308-323 | one cycle sends one click for `single`, two for `double` and one press for `hold`; only `hold` changes other state, recording the held button; an unknown type does nothing |
| SchedulerProperties.CyclesOnlyClickOrPress | index.js:308-323 | any number of cycles only ever clicks or presses: no release and no notification |
| SchedulerProperties.TicksSplit | index.js:263 | firing an interval `a + b` times is firing it `a` times and then `b` times |
| SchedulerProperties.CountedCycles | index.js:289-293 | while the counter stays within the count, each call increments it by one and runs one full cycle; a hold job presses again on every call and leaves its button recorded as held; nothing else changes |
| SchedulerProperties.SelfStopAfterCount | index.js:294-303 | the call that finds the counter equal to the count releases a held button, cancels the stored interval, resets the counter, clears `running` and sends one `autoclick-stopped` |
| SchedulerProperties.StartRunsFirstCycle | index.js:260-264 | an accepted non-hold counted start from a counter below the count runs one counted cycle at once and arms a fresh interval capturing the request |
| SchedulerProperties.RunToCompletion | index.js:260-304 | a non-hold start with count `n` from a counter `c < n` (0 on a fresh start, more after a stop), followed by `n - c` firings, sends exactly `n - c` cycles and then one `autoclick-stopped`; it ends not running, with the counter at 0 and its interval cancelled |
| SchedulerProperties.LoopRepeats | index.js:285-288 | every firing of a non-hold `loop` interval runs one cycle and nothing else, and `autoclick-stopped` is never sent (a `loop` hold start arms no interval, its first cycle having set the hold flag) |
| SchedulerProperties.IdleRepeat | index.js:290-304 | a NaN repeat, or a counter already past the count, makes a call change nothing |
| SchedulerProperties.IdleTicks | index.js:263 | such an interval fires forever without effect |
| SchedulerProperties.StaleCounterSilencesRun | index.js:260-304 | a start whose count is below a counter left by an interrupted run clicks nothing, yet sets `running` and arms an interval that never does anything |
| SchedulerProperties.HoldStartPressesOnce | index.js:260-279 | a hold start whose first cycle runs sends exactly one press and records the held button; it counts that cycle, arms no interval and leaves the stored handle as it was |
| SchedulerProperties.StopReleasesOnce | index.js:266-272 | stop releases the held button exactly when a hold is active and cancels the stored interval; it keeps the counter and `running`, and a second stop changes nothing |
| SchedulerProperties.HoldThenStop | index.js:260-272 | a hold start followed by stop sends exactly one press and one release and leaves no button down |
| SchedulerProperties.StaleEqualCountRunsFullCount | index.js:260-304 | a start whose count `n` equals the kept counter self-stops at once, then arms an interval carrying the job; its `n` firings run `n` full cycles (a hold job presses each time with no release between), and the next firing releases a hold once and self-stops |
| SchedulerProperties.StartWhileHoldArmsNothing | index.js:260-279 | a start while a hold is active, whose call does not self-stop, keeps the hold, sets `running`, sends exactly its cycle's events (none for an idle repeat) and arms no interval |
| SchedulerProperties.ToggleTwice | index.js:93-101 | F9 flips `running` and reports the new value; two presses restore `running` and report the two values in turn |
| SchedulerProperties.RestartLeavesEarlierIntervalArmed | index.js:274-279 | after a second start and a stop, the interval of the first start is still armed |
| SchedulerProperties.ZeroRepeatStopsAtOnce | index.js:260-304 | repeat `0` sends `autoclick-stopped` at once, yet ends running with an armed interval whose first firing stops again |
| SchedulerProperties.ClickPreservesValid | index.js:283-306 | `mouseButtonClick` issues no handle and only cancels one, so handles stay fresh |
| SchedulerProperties.HandlersPreserveValid | index.js:260-306 | start, stop, a firing and the F9 toggle all keep handles fresh |
| Process.MainProcess.constructor | index.js:34-37 | the object starts in the scheduler's initial state |
| Process.MainProcess.SetInterval | index.js:277 | arms the callback under a fresh handle and returns it |
| Process.MainProcess.ClearInterval | index.js:271 | cancels exactly the named interval; `undefined` is ignored |
| Process.MainProcess.ReleaseHeldButton | index.js:267-270 | sends a release of the held button and clears the hold flag exactly when a hold is active |
| Process.MainProcess.MouseButtonTypeInputs | index.js:308-323 | the in-place cycle ends in the state `TypeInputs` gives |
| Process.MainProcess.MouseButtonClick | index.js:283-306 | the in-place click, with its step-by-step `parseInt` comparisons, ends in the state `ButtonClick` gives; NaN compares false both ways |
| Process.MainProcess.StartAutoClick | index.js:274-279 | sets `running`, and arms and stores an interval unless a hold is active, keeping handles fresh |
| Process.MainProcess.HandleStart | index.js:260-264 | rejects a missing request or one with an empty field; otherwise runs one click and then `startAutoClick`, as `Start` gives |
| Process.MainProcess.HandleStop | index.js:266-272 | releases a held button, then cancels the stored interval, as `Stop` gives |
| Process.MainProcess.Fire | index.js:263 | a firing repeats the captured request, as `Tick` gives |
| Process.MainProcess.ToggleHotkey | index.js:93-101 | the F9 callback, as `Toggle` gives |
| Settings.DefaultOptions | index.js:239-254 | the first-launch document has loop mode on and set-times mode off, left button and single clicks |
| Settings.SaveOptions | index.js:367-384 | nothing is written when the document cannot be read; setting one repeat-mode flag sets the other to its negation; any other field is set alone; no key appears or disappears beyond the one written; the repeat-mode flags end exclusive whenever one of them was written or they were exclusive before |
| Settings.ConvertedKeys | index.js:166-172 | the converted document has exactly the ids of the list as keys |
| Settings.ConvertedLastValue | index.js:166-172 | each id holds the value of the last entry with that id |
| Settings.ConvertOptionsFormat | index.js:166-172 | the loop builds the converted document, so its keys are the ids and each id holds its last value |
| Statements.SetClausesTotal | index.js:148 | the `SET` clauses hold one `?` each, plus the `?` characters of the ids |
| Statements.UpdatePlaceholdersCount | index.js:147-153 | the statement's `?` count exceeds its parameter count by exactly the number of `?` characters in the option ids |
| Statements.UpdatePlaceholdersMatch | index.js:147-153 | when no option id contains `?`, the statement has exactly as many `?` markers as parameters |
| Statements.QuotedColumnsTotal | index.js:224 | the quoted column names hold only the `?` characters of the field names |
| Statements.FilledMarksPlaceholders | index.js:225 | the filled and joined value list holds exactly `n` markers |
| Statements.AddPlaceholdersCount | index.js:223-226 | the insert text has one `?` per parameter plus every `?` inside a field name |
| Statements.AddPlaceholdersMatch | index.js:223-226 | when no column name contains `?`, the insert has exactly one marker per parameter |

## Left out

- Electron window creation, app lifecycle, the frame and always-on-top handlers, and the registration and unregistration of the F9 shortcut. Only the shortcut's callback is modelled; the copy re-registered on window blur (index.js:106-114) has the same body.
- The interval length (`data.interval`) and wall-clock timing. Firings are an explicit `Fire`/`Tick` step on an armed handle, and their order is the caller's choice.
- robotjs and the window's message channel. Their calls become entries in an event log.
- `isProcessing`, which is set but never read.
- SQL tokenisation: `?` markers are counted as plain characters. A `?` inside a single-quoted column name of the insert statement is counted too, although SQLite reads it as part of the name and binds nothing to it.
- Executing SQL, `getProfiles`, `deleteProfile` and the `database-handler` dispatch. The model builds each statement's text and parameter list but does not run them.
- File I/O: `checkOptions`, the write in `createDefaultOptions`, `getOptions`, `saveOptionsToFile`, and the `update-profile` handler's write of the converted document. The document read becomes an `Option` input and the document written an `Option` output.
- Double-precision rounding in `parseInt`: numbers come out as exact integers. Very long numerals are not rounded.
- Non-integral values: numbers are integers only. Non-integral JSON numbers, arrays and nested objects are not modelled.
- Special object keys: the settings document is a plain map. The special behaviour of keys such as `__proto__` on a JavaScript object is not modelled.
- Falsy request fields: a falsy field is the empty string. Other falsy values (`0`, `false`, `null`) are not distinguished.

=== FILE: jsnumber.dfy ===
/**
 * JavaScript's global `parseInt(string)` called without a radix, as
 * `mouseButtonClick` applies it to the repeat setting.  The result is an
 * integer or NaN (`None`).  Numbers too large for a double are kept exact.
 */
module JsNumber {
  import opened Wrappers

  /** The WhiteSpace and LineTerminator code points of ECMA-262, which parseInt skips first. */
  predicate IsWhiteSpace(c: char) {
    || c == '\t' || c == '\U{000B}' || c == '\U{000C}' || c == ' ' || c == '\U{00A0}' || c == '\U{FEFF}'
    || c == '\n' || c == '\r' || c == '\U{2028}' || c == '\U{2029}'
    || c == '\U{1680}' || ('\U{2000}' <= c <= '\U{200A}') || c == '\U{202F}' || c == '\U{205F}' || c == '\U{3000}'
  }

  /** `s` without its leading white space. */
  function TrimStart(s: string): string {
    if s != [] && IsWhiteSpace(s[0]) then TrimStart(s[1..]) else s
  }

  /** TrimStart removes exactly the white space in front: a suffix of `s` that starts with something else. */
  lemma {:induction false} TrimStartIsSuffix(s: string)
    ensures var r := TrimStart(s);
      && |r| <= |s| && r == s[|s| - |r|..]
      && (r == [] || !IsWhiteSpace(r[0]))
      && forall i :: 0 <= i < |s| - |r| ==> IsWhiteSpace(s[i])
  {
    if s != [] && IsWhiteSpace(s[0]) {
      TrimStartIsSuffix(s[1..]);
      var r := TrimStart(s[1..]);
      assert TrimStart(s) == r;
      assert s[1..][|s| - 1 - |r|..] == s[|s| - |r|..];
      forall i | 0 <= i < |s| - |r|
        ensures IsWhiteSpace(s[i])
      {
        if i > 0 {
          assert s[i] == s[1..][i - 1];
        }
      }
    }
  }

  /** The value of a digit in radix 36: 0-9, then a-z and A-Z as 10-35; 36 for any other character. */
  function DigitValue(c: char): (d: nat)
    ensures d <= 36
    ensures d < 10 <==> '0' <= c <= '9'
  {
    if '0' <= c <= '9' then (c as int) - ('0' as int)
    else if 'a' <= c <= 'z' then (c as int) - ('a' as int) + 10
    else if 'A' <= c <= 'Z' then (c as int) - ('A' as int) + 10
    else 36
  }

  /** The longest prefix of `s` made of digits of the given radix. */
  function LeadingDigits(s: string, radix: nat): string {
    if s == [] || DigitValue(s[0]) >= radix then [] else [s[0]] + LeadingDigits(s[1..], radix)
  }

  /** LeadingDigits is the longest prefix of `s` made of digits of the radix. */
  lemma {:induction false} LeadingDigitsIsLongestRun(s: string, radix: nat)
    ensures var ds := LeadingDigits(s, radix);
      && ds <= s
      && (forall i :: 0 <= i < |ds| ==> DigitValue(ds[i]) < radix)
      && (|ds| < |s| ==> DigitValue(s[|ds|]) >= radix)
  {
    if s != [] && DigitValue(s[0]) < radix {
      LeadingDigitsIsLongestRun(s[1..], radix);
    }
  }

  /** The number a digit string denotes, most significant digit first. */
  function DigitsValue(ds: string, radix: nat): nat {
    if ds == [] then 0 else DigitsValue(ds[..|ds| - 1], radix) * radix + DigitValue(ds[|ds| - 1])
  }

  /** The number the leading digits of `s` denote in the given radix; NaN when `s` does not start with one. */
  function ReadDigits(s: string, radix: nat): Option<nat> {
    var ds := LeadingDigits(s, radix);
    if ds == [] then None else Some(DigitsValue(ds, radix))
  }

  /** An unsigned numeral: hexadecimal after a `0x`/`0X` prefix, decimal otherwise. */
  function ReadMagnitude(u: string): Option<nat> {
    if |u| >= 2 && u[0] == '0' && (u[1] == 'x' || u[1] == 'X') then ReadDigits(u[2..], 16)
    else ReadDigits(u, 10)
  }

  /**
   * parseInt(s) with no radix argument: skip white space, take one optional
   * sign, read hexadecimal after a `0x`/`0X` prefix and decimal otherwise,
   * stop at the first character that is not a digit, and give NaN when no
   * digit was read.
   */
  function ParseInt(s: string): Option<int> {
    var t := TrimStart(s);
    var negative := t != [] && t[0] == '-';
    var u := if t != [] && (t[0] == '-' || t[0] == '+') then t[1..] else t;
    match ReadMagnitude(u)
    case None => None
    case Some(m) =>
      var v: int := m;
      Some(if negative then -v else v)
  }

  /** The decimal digit for `d`. */
  function DigitChar(d: nat): (c: char)
    requires d < 10
    ensures '0' <= c <= '9' && DigitValue(c) == d
  {
    (('0' as int) + d) as char
  }

  /** The decimal numeral of `n`, as a number input field would hold it. */
  function DecimalString(n: nat): (r: string)
    ensures r != []
    ensures forall i :: 0 <= i < |r| ==> '0' <= r[i] <= '9'
  {
    if n < 10 then [DigitChar(n)] else DecimalString(n / 10) + [DigitChar(n % 10)]
  }

  lemma {:induction false} DecimalStringValue(n: nat)
    ensures DigitsValue(DecimalString(n), 10) == n
  {
    var r := DecimalString(n);
    if n >= 10 {
      assert r[..|r| - 1] == DecimalString(n / 10);
      DecimalStringValue(n / 10);
    }
  }

  /** A run of digits followed by a character that is no digit of the radix is read in full. */
  lemma {:induction false} LeadingDigitsOfRun(d: string, rest: string, radix: nat)
    requires forall i :: 0 <= i < |d| ==> DigitValue(d[i]) < radix
    requires rest == [] || DigitValue(rest[0]) >= radix
    ensures LeadingDigits(d + rest, radix) == d
  {
    if d != [] {
      assert (d + rest)[1..] == d[1..] + rest;
      LeadingDigitsOfRun(d[1..], rest, radix);
    }
  }

  /** The unsigned reader gives back `n` from its numeral followed by a non-alphanumeric tail. */
  lemma ReadNumeral(n: nat, rest: string)
    requires rest == [] || DigitValue(rest[0]) == 36
    ensures ReadMagnitude(DecimalString(n) + rest) == Some(n)
  {
    var d := DecimalString(n);
    var s := d + rest;
    assert s[0] == d[0];
    if |s| >= 2 {
      assert s[1] == if |d| >= 2 then d[1] else rest[0];
    }
    assert ReadMagnitude(s) == ReadDigits(s, 10);
    LeadingDigitsOfRun(d, rest, 10);
    DecimalStringValue(n);
  }

  /** parseInt reads back the numeral of every natural number, ignoring a non-alphanumeric tail. */
  lemma ParseDecimal(n: nat, rest: string)
    requires rest == [] || DigitValue(rest[0]) == 36
    ensures ParseInt(DecimalString(n) + rest) == Some(n)
  {
    var s := DecimalString(n) + rest;
    assert s[0] == DecimalString(n)[0];
    assert !IsWhiteSpace(s[0]);
    assert TrimStart(s) == s;
    ReadNumeral(n, rest);
  }

  /** parseInt reads back a minus sign in front of a numeral. */
  lemma ParseNegativeDecimal(n: nat)
    ensures ParseInt("-" + DecimalString(n)) == Some(-(n as int))
  {
    var s := "-" + DecimalString(n);
    assert !IsWhiteSpace(s[0]);
    assert TrimStart(s) == s;
    assert s[1..] == DecimalString(n) + [];
    ReadNumeral(n, []);
  }

  /** A string without any decimal digit is NaN to parseInt (a hexadecimal prefix starts with `0`). */
  lemma NoDigitIsNaN(s: string)
    requires forall i :: 0 <= i < |s| ==> !('0' <= s[i] <= '9')
    ensures ParseInt(s) == None
  {
    var t := TrimStart(s);
    TrimStartIsSuffix(s);
    var u := if t != [] && (t[0] == '-' || t[0] == '+') then t[1..] else t;
    if u != [] {
      assert u[0] == s[|s| - |u|];
      assert DigitValue(u[0]) >= 10;
      assert LeadingDigits(u, 10) == [];
    }
    assert ReadMagnitude(u) == None;
  }
}

=== FILE: process.dfy ===
/**
 * The main process's handlers as they run: the module-level variables are
 * fields that each handler updates step by step, the host's interval table
 * is a map from handle to the captured request, and everything sent to the
 * input driver or the renderer is appended to `log`.  Every method is
 * proved to take the object from `Snapshot()` to the state the matching
 * `Scheduler` function gives.
 */
module Process {
  import opened Wrappers
  import opened Scheduler
  import JsNumber
  import SchedulerProperties

  class MainProcess {
    var running: bool
    var currentNumber: nat
    var isMouseButtonHold: bool
    var holdMouseButton: string
    var autoClickInterval: Option<nat>
    var armed: map<nat, Job>
    var nextHandle: nat
    var log: seq<Event>

    /** The object's variables as one scheduler state. */
    function Snapshot(): State
      reads this
    {
      State(running, currentNumber, isMouseButtonHold, holdMouseButton,
            autoClickInterval, armed, nextHandle, log)
    }

    /** Handles stay fresh. */
    ghost predicate Valid()
      reads this
    {
      Scheduler.Valid(Snapshot())
    }

    /** The variables as the main process starts. */
    constructor ()
      ensures Valid() && Snapshot() == Init()
    {
      running := false;
      currentNumber := 0;
      isMouseButtonHold := false;
      holdMouseButton := "";
      autoClickInterval := None;
      armed := map[];
      nextHandle := 0;
      log := [];
    }

    /** The host's `setInterval`: arms the callback under a fresh handle. */
    method SetInterval(job: Job) returns (handle: nat)
      modifies this
      ensures handle == old(nextHandle)
      ensures Snapshot() == old(Snapshot()).(armed := old(armed)[handle := job], nextHandle := handle + 1)
    {
      handle := nextHandle;
      armed := armed[handle := job];
      nextHandle := nextHandle + 1;
    }

    /** The host's `clearInterval`. */
    method ClearInterval(handle: Option<nat>)
      modifies this
      ensures Snapshot() == old(Snapshot()).(armed := Scheduler.ClearInterval(old(armed), handle))
    {
      if handle.Some? {
        armed := armed - {handle.value};
      }
    }

    /** Releases the held button if a hold is active (index.js has this block twice). */
    method ReleaseHeldButton()
      modifies this
      ensures Snapshot() == ReleaseHold(old(Snapshot()))
    {
      if isMouseButtonHold {
        log := log + [Release(holdMouseButton)];
        isMouseButtonHold := false;
      }
    }

    /** `mouseButtonTypeInputs(input, type)`. */
    method MouseButtonTypeInputs(input: string, clickType: string)
      modifies this
      ensures Snapshot() == TypeInputs(old(Snapshot()), input, clickType)
    {
      if clickType == "single" {
        log := log + [Click(input)];
      } else if clickType == "double" {
        log := log + [Click(input)];
        log := log + [Click(input)];
      } else if clickType == "hold" {
        isMouseButtonHold := true;
        holdMouseButton := input;
        log := log + [Press(input)];
      }
    }

    /** `mouseButtonClick(input, type, repeat)`; a comparison with NaN is false both ways. */
    method MouseButtonClick(input: string, clickType: string, repeat: string)
      modifies this
      ensures Snapshot() == ButtonClick(old(Snapshot()), Job(input, clickType, repeat))
    {
      if repeat == "loop" {
        MouseButtonTypeInputs(input, clickType);
      } else {
        var repeatCount := JsNumber.ParseInt(repeat);
        if repeatCount.Some? && currentNumber < repeatCount.value {
          currentNumber := currentNumber + 1;
          MouseButtonTypeInputs(input, clickType);
        } else if repeatCount.Some? && currentNumber == repeatCount.value {
          ReleaseHeldButton();
          ClearInterval(autoClickInterval);
          currentNumber := 0;
          running := false;
          log := log + [AutoclickStopped];
        }
      }
    }

    /** `startAutoClick`: the new handle overwrites the stored one. */
    method StartAutoClick(job: Job)
      requires Valid()
      modifies this
      ensures Valid() && Snapshot() == Scheduler.StartAutoClick(old(Snapshot()), job)
    {
      running := true;
      if !isMouseButtonHold {
        var handle := SetInterval(job);
        autoClickInterval := Some(handle);
      }
    }

    /** The `start-autoclick` handler; `data` is None when the request itself is missing. */
    method HandleStart(data: Option<Job>)
      requires Valid()
      modifies this
      ensures Valid() && Snapshot() == Start(old(Snapshot()), data)
    {
      if data.None? || data.value.input == "" || data.value.clickType == "" || data.value.repeat == "" {
        return;
      }
      ghost var before := Snapshot();
      MouseButtonClick(data.value.input, data.value.clickType, data.value.repeat);
      SchedulerProperties.ClickPreservesValid(before, data.value);
      StartAutoClick(data.value);
    }

    /** The `stop-autoclick` handler. */
    method HandleStop()
      requires Valid()
      modifies this
      ensures Valid() && Snapshot() == Stop(old(Snapshot()))
    {
      ReleaseHeldButton();
      ClearInterval(autoClickInterval);
    }

    /** The host fires the armed interval `handle`: its callback repeats the captured request. */
    method Fire(handle: nat)
      requires Valid() && handle in armed
      modifies this
      ensures Valid() && Snapshot() == Tick(old(Snapshot()), handle)
    {
      var job := armed[handle];
      ghost var before := Snapshot();
      MouseButtonClick(job.input, job.clickType, job.repeat);
      SchedulerProperties.ClickPreservesValid(before, job);
    }

    /** The F9 shortcut callback (registered at start-up and again on every window blur). */
    method ToggleHotkey()
      requires Valid()
      modifies this
      ensures Valid() && Snapshot() == Toggle(old(Snapshot()))
    {
      if !running {
        running := true;
        log := log + [BackgroundHotkeys(true)];
      } else {
        log := log + [BackgroundHotkeys(false)];
        running := false;
      }
    }
  }
}

=== FILE: scheduler.dfy ===
/**
 * The auto-click scheduler of the main process as a state machine over
 * values.  A `State` holds the module-level variables the handlers share
 * (`running`, `currentNumber`, `isMouseButtonHold`, `holdMouseButton`,
 * `autoClickInterval`), the intervals the host currently has armed, and
 * the log of everything sent outwards: input-driver calls and renderer
 * notifications.  Each function below is one handler or helper of the
 * main process; class `Process.MainProcess` performs the same steps in
 * place and is proved to agree with these functions.
 */
module Scheduler {
  import opened Wrappers
  import JsNumber

  /** What the main process sends outwards, in order. */
  datatype Event =
    | Click(button: string)           // robot.mouseClick(button)
    | Press(button: string)           // robot.mouseToggle('down', button)
    | Release(button: string)         // robot.mouseToggle('up', button)
    | AutoclickStopped                // 'autoclick-stopped' { success: true } to the renderer
    | BackgroundHotkeys(start: bool)  // 'background-hotkeys' { start } to the renderer

  /** How `mouseButtonClick` reads its `repeat` argument. */
  datatype Repeat = Loop | Times(count: int) | NaN

  /** The `'loop'` case of the switch, otherwise the result of `parseInt(repeat)`. */
  function RepeatOf(repeat: string): (r: Repeat)
    ensures r.Loop? <==> repeat == "loop"
  {
    if repeat == "loop" then Loop
    else match JsNumber.ParseInt(repeat)
      case Some(k) => Times(k)
      case None => NaN
  }

  /**
   * The arguments of a `start-autoclick` request, which the armed interval's
   * callback captures: button (`input`), click type (`type`) and repeat.
   * A missing or empty field is the empty string.
   */
  datatype Job = Job(input: string, clickType: string, repeat: string)

  datatype State = State(
    running: bool,
    currentNumber: nat,
    isMouseButtonHold: bool,
    holdMouseButton: string,
    autoClickInterval: Option<nat>,  // the stored interval handle; None while it is still undefined
    armed: map<nat, Job>,            // every interval the host will still fire, by handle
    nextHandle: nat,                 // the handle the next setInterval returns
    events: seq<Event>)

  /** Handles are fresh: every armed or stored handle was issued before `nextHandle`. */
  predicate Valid(s: State) {
    && (forall h :: h in s.armed ==> h < s.nextHandle)
    && (s.autoClickInterval.Some? ==> s.autoClickInterval.value < s.nextHandle)
  }

  /** The variables as the process starts: not running, nothing held, no interval. */
  function Init(): (s: State)
    ensures Valid(s) && !s.running && !s.isMouseButtonHold && s.armed == map[] && s.events == []
    ensures s.currentNumber == 0 && s.autoClickInterval == None
  {
    State(false, 0, false, "", None, map[], 0, [])
  }

  /** What one click cycle sends to the input driver, by click type. */
  function CycleEvents(input: string, clickType: string): seq<Event> {
    if clickType == "single" then [Click(input)]
    else if clickType == "double" then [Click(input), Click(input)]
    else if clickType == "hold" then [Press(input)]
    else []
  }

  /** `mouseButtonTypeInputs`: one click cycle. */
  function TypeInputs(s: State, input: string, clickType: string): State {
    if clickType == "single" then s.(events := s.events + [Click(input)])
    else if clickType == "double" then s.(events := s.events + [Click(input)] + [Click(input)])
    else if clickType == "hold" then
      s.(isMouseButtonHold := true, holdMouseButton := input, events := s.events + [Press(input)])
    else s
  }

  /** The release step shared by the stop handler and the self-stop branch. */
  function ReleaseHold(s: State): State {
    if s.isMouseButtonHold then
      s.(events := s.events + [Release(s.holdMouseButton)], isMouseButtonHold := false)
    else s
  }

  /** `clearInterval(handle)`: cancels that one interval; `undefined` or a finished handle is ignored. */
  function ClearInterval(armed: map<nat, Job>, handle: Option<nat>): map<nat, Job> {
    if handle.Some? then armed - {handle.value} else armed
  }

  /** The branch of `mouseButtonClick` taken when the counter has reached the repeat count. */
  function SelfStop(s: State): State {
    var r := ReleaseHold(s);
    var r := r.(armed := ClearInterval(r.armed, r.autoClickInterval));
    r.(currentNumber := 0, running := false, events := r.events + [AutoclickStopped])
  }

  /** `mouseButtonClick(input, type, repeat)`. */
  function ButtonClick(s: State, job: Job): State {
    match RepeatOf(job.repeat)
    case Loop => TypeInputs(s, job.input, job.clickType)
    case Times(n) =>
      if s.currentNumber < n then
        TypeInputs(s.(currentNumber := s.currentNumber + 1), job.input, job.clickType)
      else if s.currentNumber == n then SelfStop(s)
      else s
    case NaN => s
  }

  /** `startAutoClick`: sets `running`, and arms an interval unless a button is held. */
  function StartAutoClick(s: State, job: Job): State {
    var r := s.(running := true);
    if !r.isMouseButtonHold then
      r.(armed := r.armed[r.nextHandle := job], autoClickInterval := Some(r.nextHandle),
         nextHandle := r.nextHandle + 1)
    else r
  }

  /** The guard of the `start-autoclick` handler: the request and its three fields are truthy. */
  predicate Accepted(data: Option<Job>) {
    data.Some? && data.value.input != "" && data.value.clickType != "" && data.value.repeat != ""
  }

  /** The `start-autoclick` handler: one cycle at once, then the interval. */
  function Start(s: State, data: Option<Job>): State {
    if !Accepted(data) then s
    else StartAutoClick(ButtonClick(s, data.value), data.value)
  }

  /** The `stop-autoclick` handler. */
  function Stop(s: State): State {
    var r := ReleaseHold(s);
    r.(armed := ClearInterval(r.armed, r.autoClickInterval))
  }

  /** One firing of the armed interval `h`: its callback runs `mouseButtonClick` with the captured request. */
  function Tick(s: State, h: nat): State
    requires h in s.armed
  {
    ButtonClick(s, s.armed[h])
  }

  /** The F9 shortcut callback. */
  function Toggle(s: State): State {
    if !s.running then s.(running := true, events := s.events + [BackgroundHotkeys(true)])
    else s.(events := s.events + [BackgroundHotkeys(false)], running := false)
  }

  /** Up to `k` firings of interval `h`, ending early once it is no longer armed. */
  function Ticks(s: State, h: nat, k: nat): State
    decreases k
  {
    if k == 0 || h !in s.armed then s else Ticks(Tick(s, h), h, k - 1)
  }

  /** `k` repetitions of `c`. */
  function Copies(c: seq<Event>, k: nat): (r: seq<Event>)
    ensures |r| == k * |c|
  {
    if k == 0 then [] else c + Copies(c, k - 1)
  }
}

=== FILE: scheduler_properties.dfy ===
/**
 * What the scheduler's handlers do over whole runs: the click count, the
 * self-stop one call after the last counted cycle, looping, holding,
 * stopping, the hotkey toggle, and the handle bookkeeping of intervals.
 */
module SchedulerProperties {
  import opened Wrappers
  import opened Scheduler

  /** A cycle sends exactly `CycleEvents`; only `hold` touches other state, recording the held button. */
  lemma CycleOutput(s: State, input: string, clickType: string)
    ensures TypeInputs(s, input, clickType)
         == (if clickType == "hold" then s.(isMouseButtonHold := true, holdMouseButton := input) else s)
              .(events := s.events + CycleEvents(input, clickType))
  {
    if clickType == "double" {
      assert s.events + [Click(input)] + [Click(input)] == s.events + [Click(input), Click(input)];
    }
  }

  /** Cycles only ever click or press. */
  lemma {:induction false} CyclesOnlyClickOrPress(input: string, clickType: string, k: nat)
    ensures forall e :: e in Copies(CycleEvents(input, clickType), k) ==> e.Click? || e.Press?
  {
    if k > 0 {
      CyclesOnlyClickOrPress(input, clickType, k - 1);
    }
  }

  /** Firing an interval `a + b` times is firing it `a` times and then `b` times. */
  lemma {:induction false} TicksSplit(s: State, h: nat, a: nat, b: nat)
    ensures Ticks(s, h, a + b) == Ticks(Ticks(s, h, a), h, b)
    decreases a
  {
    if a > 0 && h in s.armed {
      TicksSplit(Tick(s, h), h, a - 1, b);
    }
  }

  /**
   * With repeat `Times(n)`, each of the calls that bring the counter up to
   * `n` increments it and runs one full cycle.  A hold job presses again on
   * every call and leaves its button recorded as held; nothing else changes.
   */
  lemma {:induction false} CountedCycles(s: State, h: nat, k: nat, n: int)
    requires h in s.armed && RepeatOf(s.armed[h].repeat) == Times(n)
    requires s.currentNumber + k <= n
    ensures var job := s.armed[h];
      Ticks(s, h, k)
         == (if k > 0 && job.clickType == "hold" then s.(isMouseButtonHold := true, holdMouseButton := job.input) else s)
              .(currentNumber := s.currentNumber + k,
                events := s.events + Copies(CycleEvents(job.input, job.clickType), k))
    decreases k
  {
    if k > 0 {
      var job := s.armed[h];
      var c := CycleEvents(job.input, job.clickType);
      CycleOutput(s.(currentNumber := s.currentNumber + 1), job.input, job.clickType);
      var s1 := Tick(s, h);
      var held := if job.clickType == "hold" then s.(isMouseButtonHold := true, holdMouseButton := job.input) else s;
      assert s1 == held.(currentNumber := s.currentNumber + 1, events := s.events + c);
      CountedCycles(s1, h, k - 1, n);
      assert s.events + c + Copies(c, k - 1) == s.events + Copies(c, k);
    }
  }

  /**
   * The call after the `n`-th counted cycle runs no cycle: it releases a held
   * button, cancels the stored interval, resets the counter, clears
   * `running` and sends one `autoclick-stopped`.
   */
  lemma SelfStopAfterCount(s: State, job: Job, n: int)
    requires RepeatOf(job.repeat) == Times(n) && s.currentNumber == n
    ensures var r := ButtonClick(s, job);
      && r.events == s.events + (if s.isMouseButtonHold then [Release(s.holdMouseButton)] else []) + [AutoclickStopped]
      && !r.isMouseButtonHold && !r.running && r.currentNumber == 0
      && r.armed == ClearInterval(s.armed, s.autoClickInterval)
      && r.autoClickInterval == s.autoClickInterval && r.nextHandle == s.nextHandle
  {
  }

  /**
   * A start with a non-hold type and repeat `Times(n)`, from a counter
   * below `n`, runs one counted cycle at once and arms the next handle with
   * the request.
   */
  lemma StartRunsFirstCycle(s: State, job: Job, n: int)
    requires Accepted(Some(job))
    requires job.clickType != "hold" && RepeatOf(job.repeat) == Times(n)
    requires s.currentNumber < n && !s.isMouseButtonHold
    ensures Start(s, Some(job))
         == s.(currentNumber := s.currentNumber + 1, events := s.events + CycleEvents(job.input, job.clickType), running := true,
               armed := s.armed[s.nextHandle := job], autoClickInterval := Some(s.nextHandle),
               nextHandle := s.nextHandle + 1)
  {
    CycleOutput(s.(currentNumber := s.currentNumber + 1), job.input, job.clickType);
  }

  /**
   * A start with a non-hold type and repeat `Times(n)`, from a counter `c`
   * below `n` (0 on a fresh start, more after a stop), followed by `n - c`
   * firings of the interval it arms: `n - c` cycles, then one
   * `autoclick-stopped`; the process is no longer running and the interval
   * is cancelled.
   */
  lemma RunToCompletion(s: State, job: Job, n: nat)
    requires Valid(s) && Accepted(Some(job))
    requires job.clickType != "hold" && RepeatOf(job.repeat) == Times(n)
    requires s.currentNumber < n && !s.isMouseButtonHold
    ensures var r := Ticks(Start(s, Some(job)), s.nextHandle, n - s.currentNumber);
      && r.events == s.events + Copies(CycleEvents(job.input, job.clickType), n - s.currentNumber) + [AutoclickStopped]
      && !r.running && r.currentNumber == 0 && !r.isMouseButtonHold
      && r.armed == s.armed && s.nextHandle !in r.armed
  {
    var h := s.nextHandle;
    var c := CycleEvents(job.input, job.clickType);
    var m := n - s.currentNumber;
    StartRunsFirstCycle(s, job, n);
    var s1 := Start(s, Some(job));
    CountedCycles(s1, h, m - 1, n);
    var s2 := Ticks(s1, h, m - 1);
    assert s.events + c + Copies(c, m - 1) == s.events + Copies(c, m);
    assert s2.events == s.events + Copies(c, m) && s2.currentNumber == n;
    assert s2.armed == s.armed[h := job] && s2.autoClickInterval == Some(h);
    TicksSplit(s1, h, m - 1, 1);
    var r := Ticks(s2, h, 1);
    assert r == Tick(s2, h);
    SelfStopAfterCount(s2, job, n);
    assert r.armed == s.armed[h := job] - {h};
    assert s.armed[h := job] - {h} == s.armed;
  }

  /**
   * With repeat `loop` every firing runs one cycle and nothing else: the
   * counter, `running` and the intervals are untouched and no
   * `autoclick-stopped` is ever sent.
   */
  lemma {:induction false} LoopRepeats(s: State, h: nat, k: nat)
    requires h in s.armed && s.armed[h].repeat == "loop" && s.armed[h].clickType != "hold"
    ensures Ticks(s, h, k)
         == s.(events := s.events + Copies(CycleEvents(s.armed[h].input, s.armed[h].clickType), k))
    ensures AutoclickStopped !in Ticks(s, h, k).events[|s.events|..]
    decreases k
  {
    var job := s.armed[h];
    var c := CycleEvents(job.input, job.clickType);
    if k > 0 {
      CycleOutput(s, job.input, job.clickType);
      LoopRepeats(Tick(s, h), h, k - 1);
      assert s.events + c + Copies(c, k - 1) == s.events + Copies(c, k);
    }
    CyclesOnlyClickOrPress(job.input, job.clickType, k);
    assert Ticks(s, h, k).events[|s.events|..] == Copies(c, k);
  }

  /** A repeat that parses to NaN, or a counter already past the count, makes a call do nothing at all. */
  lemma IdleRepeat(s: State, job: Job)
    requires || RepeatOf(job.repeat).NaN?
             || (RepeatOf(job.repeat).Times? && s.currentNumber > RepeatOf(job.repeat).count)
    ensures ButtonClick(s, job) == s
  {
  }

  /** Such an interval fires forever without effect. */
  lemma {:induction false} IdleTicks(s: State, h: nat, k: nat)
    requires h in s.armed
    requires || RepeatOf(s.armed[h].repeat).NaN?
             || (RepeatOf(s.armed[h].repeat).Times? && s.currentNumber > RepeatOf(s.armed[h].repeat).count)
    ensures Ticks(s, h, k) == s
    decreases k
  {
    if k > 0 {
      IdleRepeat(s, s.armed[h]);
      IdleTicks(s, h, k - 1);
    }
  }

  /**
   * Because stop keeps the counter, a start whose count is below a counter
   * left over from an interrupted run clicks nothing: it sets `running` and
   * arms an interval whose firings never change anything.
   */
  lemma StaleCounterSilencesRun(s: State, job: Job, n: int, k: nat)
    requires Valid(s) && Accepted(Some(job)) && !s.isMouseButtonHold
    requires RepeatOf(job.repeat) == Times(n) && s.currentNumber > n
    ensures var r := Start(s, Some(job));
      && r.events == s.events && r.running && r.currentNumber == s.currentNumber
      && s.nextHandle in r.armed && Ticks(r, s.nextHandle, k) == r
  {
    IdleRepeat(s, job);
    var r := Start(s, Some(job));
    IdleTicks(r, s.nextHandle, k);
  }

  /**
   * A hold start with no hold active, whose repeat lets the first cycle run,
   * sends exactly one press and arms no interval, because the synchronous
   * cycle sets the hold flag before `startAutoClick` tests it.
   */
  lemma HoldStartPressesOnce(s: State, job: Job)
    requires Accepted(Some(job)) && job.clickType == "hold" && !s.isMouseButtonHold
    requires || RepeatOf(job.repeat).Loop?
             || (RepeatOf(job.repeat).Times? && s.currentNumber < RepeatOf(job.repeat).count)
    ensures var r := Start(s, Some(job));
      && r.events == s.events + [Press(job.input)]
      && r.isMouseButtonHold && r.holdMouseButton == job.input && r.running
      && r.currentNumber == (if RepeatOf(job.repeat).Loop? then s.currentNumber else s.currentNumber + 1)
      && r.armed == s.armed && r.autoClickInterval == s.autoClickInterval && r.nextHandle == s.nextHandle
  {
  }

  /**
   * Stop sends a release of the held button exactly when a hold is active,
   * clears the hold and cancels the stored interval; it keeps the counter
   * and `running`, and a second stop changes nothing.
   */
  lemma StopReleasesOnce(s: State)
    ensures var r := Stop(s);
      && r.events == s.events + (if s.isMouseButtonHold then [Release(s.holdMouseButton)] else [])
      && !r.isMouseButtonHold
      && r.currentNumber == s.currentNumber && r.running == s.running
      && r.armed == ClearInterval(s.armed, s.autoClickInterval)
      && r.autoClickInterval == s.autoClickInterval
      && Stop(r) == r
  {
    var r := Stop(s);
    if r.autoClickInterval.Some? {
      assert r.armed - {r.autoClickInterval.value} == r.armed;
    }
  }

  /** A hold started and then stopped leaves exactly one press and one release, and no button down. */
  lemma HoldThenStop(s: State, job: Job)
    requires Accepted(Some(job)) && job.clickType == "hold" && !s.isMouseButtonHold
    requires || RepeatOf(job.repeat).Loop?
             || (RepeatOf(job.repeat).Times? && s.currentNumber < RepeatOf(job.repeat).count)
    ensures var r := Stop(Start(s, Some(job)));
      && r.events == s.events + [Press(job.input), Release(job.input)]
      && !r.isMouseButtonHold && Stop(r) == r
  {
    HoldStartPressesOnce(s, job);
    StopReleasesOnce(Start(s, Some(job)));
  }

  /**
   * A start whose count equals the counter, as a counted run stopped at its
   * last cycle leaves it, self-stops at once (so a hold job does not set the
   * hold flag) and then arms an interval carrying the job.  That interval
   * runs the full count again: its first `n` firings each run one cycle (a
   * hold job presses again with no release in between), and the next one
   * releases a hold once and self-stops.
   */
  lemma StaleEqualCountRunsFullCount(s: State, job: Job, n: nat)
    requires Valid(s) && Accepted(Some(job)) && !s.isMouseButtonHold
    requires RepeatOf(job.repeat) == Times(n) && s.currentNumber == n
    ensures var r := Start(s, Some(job));
      && r.events == s.events + [AutoclickStopped]
      && r.running && r.currentNumber == 0 && !r.isMouseButtonHold
      && r.autoClickInterval == Some(s.nextHandle) && s.nextHandle in r.armed && r.armed[s.nextHandle] == job
    ensures var t := Ticks(Start(s, Some(job)), s.nextHandle, n + 1);
      && t.events == s.events + [AutoclickStopped] + Copies(CycleEvents(job.input, job.clickType), n)
                      + (if n > 0 && job.clickType == "hold" then [Release(job.input)] else []) + [AutoclickStopped]
      && !t.isMouseButtonHold && !t.running && t.currentNumber == 0 && s.nextHandle !in t.armed
  {
    var h := s.nextHandle;
    SelfStopAfterCount(s, job, n);
    var r := Start(s, Some(job));
    assert r.events == s.events + [AutoclickStopped];
    assert r.armed == ClearInterval(s.armed, s.autoClickInterval)[h := job];
    CountedCycles(r, h, n, n);
    var r2 := Ticks(r, h, n);
    assert r2.currentNumber == n && r2.armed == r.armed && r2.autoClickInterval == Some(h);
    assert r2.isMouseButtonHold == (n > 0 && job.clickType == "hold");
    assert r2.isMouseButtonHold ==> r2.holdMouseButton == job.input;
    TicksSplit(r, h, n, 1);
    var t := Ticks(r2, h, 1);
    assert t == Tick(r2, h);
    SelfStopAfterCount(r2, job, n);
    assert t.armed == r.armed - {h};
  }

  /**
   * A start while a hold is active runs its cycle with the button still
   * down (unless that same call self-stops) and arms no interval: the hold
   * flag is still set when `startAutoClick` tests it.
   */
  lemma StartWhileHoldArmsNothing(s: State, job: Job)
    requires Accepted(Some(job)) && s.isMouseButtonHold
    requires !(RepeatOf(job.repeat).Times? && s.currentNumber == RepeatOf(job.repeat).count)
    ensures var r := Start(s, Some(job));
      && r.running && r.isMouseButtonHold
      && r.armed == s.armed && r.autoClickInterval == s.autoClickInterval && r.nextHandle == s.nextHandle
      && r.events == s.events
           + (if RepeatOf(job.repeat).Loop? || (RepeatOf(job.repeat).Times? && s.currentNumber < RepeatOf(job.repeat).count)
              then CycleEvents(job.input, job.clickType) else [])
  {
    CycleOutput(s, job.input, job.clickType);
    CycleOutput(s.(currentNumber := s.currentNumber + 1), job.input, job.clickType);
  }

  /**
   * The F9 callback flips `running` and reports the new value; two presses
   * restore `running` and report the two values in turn.
   */
  lemma ToggleTwice(s: State)
    ensures Toggle(s).running == !s.running
    ensures Toggle(s).events == s.events + [BackgroundHotkeys(!s.running)]
    ensures Toggle(Toggle(s))
         == s.(events := s.events + [BackgroundHotkeys(!s.running), BackgroundHotkeys(s.running)])
  {
  }

  /**
   * A second start overwrites the stored handle without cancelling the
   * interval it named, so a later stop cancels only the newer interval and
   * the earlier one stays armed.
   */
  lemma RestartLeavesEarlierIntervalArmed(s: State, job: Job)
    requires Valid(s) && s.autoClickInterval.Some? && s.autoClickInterval.value in s.armed
    requires Accepted(Some(job)) && job.repeat == "loop" && job.clickType != "hold" && !s.isMouseButtonHold
    ensures Stop(Start(s, Some(job))).armed == s.armed
    ensures s.autoClickInterval.value in Stop(Start(s, Some(job))).armed
  {
    CycleOutput(s, job.input, job.clickType);
    assert s.armed[s.nextHandle := job] - {s.nextHandle} == s.armed;
  }

  /**
   * Repeat `0` from a zero counter: the synchronous call self-stops at once
   * (one `autoclick-stopped`), after which `startAutoClick` sets `running`
   * again and arms an interval; its first firing self-stops once more.
   */
  lemma ZeroRepeatStopsAtOnce(s: State, job: Job)
    requires Valid(s) && Accepted(Some(job)) && !s.isMouseButtonHold
    requires RepeatOf(job.repeat) == Times(0) && s.currentNumber == 0
    ensures var r := Start(s, Some(job));
      && r.events == s.events + [AutoclickStopped]
      && r.running && r.autoClickInterval == Some(s.nextHandle) && s.nextHandle in r.armed
      && Tick(r, s.nextHandle).events == r.events + [AutoclickStopped]
      && !Tick(r, s.nextHandle).running && s.nextHandle !in Tick(r, s.nextHandle).armed
  {
  }

  /** `mouseButtonClick` never issues a handle and only ever cancels one. */
  lemma ClickPreservesValid(s: State, job: Job)
    requires Valid(s)
    ensures Valid(ButtonClick(s, job))
  {
    match RepeatOf(job.repeat)
    case Loop =>
    case Times(n) =>
    case NaN =>
  }

  /** Every handler keeps handles fresh. */
  lemma HandlersPreserveValid(s: State, data: Option<Job>, h: nat)
    requires Valid(s)
    ensures Valid(Start(s, data)) && Valid(Stop(s)) && Valid(Toggle(s))
    ensures h in s.armed ==> Valid(Tick(s, h))
  {
    if Accepted(data) {
      ClickPreservesValid(s, data.value);
    }
    if h in s.armed {
      ClickPreservesValid(s, s.armed[h]);
    }
  }
}

=== FILE: settings.dfy ===
/**
 * The settings document (`options.json`) as a map from field name to value,
 * its default contents, the read-modify-write of one field, and the
 * conversion of a profile's `{ id, value }` list into a document.
 */
module Settings {
  import opened Wrappers
  import opened Values

  type Options = map<string, Value>

  const LoopKey := "loopInput"
  const RepeatTimesKey := "repeatSetTimesInput"

  /** Exactly one of the two repeat-mode flags is on. */
  predicate RepeatModeExclusive(o: Options) {
    LoopKey in o && RepeatTimesKey in o && Truthy(o[LoopKey]) != Truthy(o[RepeatTimesKey])
  }

  /** The document written on first launch: loop mode on, set-times mode off. */
  function DefaultOptions(): (o: Options)
    ensures RepeatModeExclusive(o) && Truthy(o[LoopKey])
    ensures "mouseButtonInput" in o && o["mouseButtonInput"] == Str("left")
    ensures "typeInput" in o && o["typeInput"] == Str("single")
  {
    map[
      "mouseButtonInput" := Str("left"),
      "delayCheckbox" := Bool(false),
      "delayAmount" := Str("1000"),
      "typeInput" := Str("single"),
      RepeatTimesKey := Bool(false),
      "repeatTimes" := Str("1"),
      "alwaysOnTopCheckbox" := Bool(false),
      LoopKey := Bool(true),
      "hoursInput" := Str("0"),
      "minutesInput" := Str("0"),
      "secondsInput" := Str("0"),
      "millisecondsInput" := Str("0")
    ]
  }

  /**
   * `saveOptions(input, value)`: `stored` is what reading the file gave
   * (None when it could not be read or parsed to a truthy value) and
   * `written` is what is written back (None: nothing is written).  Setting
   * either repeat-mode flag sets the other to the negation of the value.
   */
  method SaveOptions(stored: Option<Options>, input: string, value: Value) returns (written: Option<Options>)
    ensures stored.None? <==> written.None?
    ensures written.Some? ==>
      written.value.Keys
        == stored.value.Keys + (if input == LoopKey || input == RepeatTimesKey then {LoopKey, RepeatTimesKey} else {input})
    ensures written.Some? && input == LoopKey ==>
      written.value[LoopKey] == value && written.value[RepeatTimesKey] == Bool(!Truthy(value))
    ensures written.Some? && input == RepeatTimesKey ==>
      written.value[RepeatTimesKey] == value && written.value[LoopKey] == Bool(!Truthy(value))
    ensures written.Some? && input != LoopKey && input != RepeatTimesKey ==>
      written.value[input] == value
    ensures written.Some? ==>
      forall k :: k in stored.value && k != input && k != LoopKey && k != RepeatTimesKey ==>
        written.value[k] == stored.value[k]
    ensures written.Some? && input != LoopKey && input != RepeatTimesKey ==>
      forall k :: k in stored.value && k != input ==> written.value[k] == stored.value[k]
    ensures written.Some? && (input == LoopKey || input == RepeatTimesKey || RepeatModeExclusive(stored.value)) ==>
      RepeatModeExclusive(written.value)
  {
    if stored.None? {
      return None;
    }
    var options := stored.value;
    if input == LoopKey {
      options := options[RepeatTimesKey := Bool(!Truthy(value))];
      options := options[LoopKey := value];
    } else if input == RepeatTimesKey {
      options := options[LoopKey := Bool(!Truthy(value))];
      options := options[RepeatTimesKey := value];
    } else {
      options := options[input := value];
    }
    written := Some(options);
  }

  /** No later entry of the list has the same id as entry `i`. */
  predicate IsLastWithId(entries: seq<OptionEntry>, i: int)
    requires 0 <= i < |entries|
  {
    forall j :: i < j < |entries| ==> entries[j].id != entries[i].id
  }

  /** The settings map the list describes: each entry overrides earlier ones with its id. */
  ghost function Converted(entries: seq<OptionEntry>): Options
  {
    if entries == [] then map[]
    else Converted(entries[..|entries| - 1])[entries[|entries| - 1].id := entries[|entries| - 1].value]
  }

  /** The keys of the converted map are exactly the ids that occur in the list. */
  lemma {:induction false} ConvertedKeys(entries: seq<OptionEntry>)
    ensures forall k :: k in Converted(entries) <==> exists i :: 0 <= i < |entries| && entries[i].id == k
  {
    if entries != [] {
      var init := entries[..|entries| - 1];
      ConvertedKeys(init);
      assert Converted(entries) == Converted(init)[entries[|entries| - 1].id := entries[|entries| - 1].value];
      forall k | k in Converted(entries)
        ensures exists i :: 0 <= i < |entries| && entries[i].id == k
      {
        if k != entries[|entries| - 1].id {
          var i :| 0 <= i < |init| && init[i].id == k;
          assert entries[i].id == k;
        }
      }
      forall k, i | 0 <= i < |entries| && entries[i].id == k
        ensures k in Converted(entries)
      {
        if i < |init| {
          assert init[i].id == k;
        }
      }
    }
  }

  /** Every id maps to the value of its last entry in the list. */
  lemma {:induction false} ConvertedLastValue(entries: seq<OptionEntry>)
    ensures forall i :: 0 <= i < |entries| && IsLastWithId(entries, i) ==>
      entries[i].id in Converted(entries) && Converted(entries)[entries[i].id] == entries[i].value
  {
    ConvertedKeys(entries);
    if entries != [] {
      var init := entries[..|entries| - 1];
      ConvertedLastValue(init);
      assert Converted(entries) == Converted(init)[entries[|entries| - 1].id := entries[|entries| - 1].value];
      forall i | 0 <= i < |entries| - 1 && IsLastWithId(entries, i)
        ensures Converted(entries)[entries[i].id] == entries[i].value
      {
        assert entries[|entries| - 1].id != entries[i].id;
        assert init[i] == entries[i];
        assert IsLastWithId(init, i);
      }
    }
  }

  /**
   * `convertOptionsFormat`: one key per id in the list, holding the value of
   * the last entry with that id.
   */
  method ConvertOptionsFormat(existing: seq<OptionEntry>) returns (newFormat: Options)
    ensures newFormat == Converted(existing)
    ensures forall k :: k in newFormat <==> exists i :: 0 <= i < |existing| && existing[i].id == k
    ensures forall i :: 0 <= i < |existing| && IsLastWithId(existing, i) ==>
      newFormat[existing[i].id] == existing[i].value
  {
    newFormat := map[];
    for n := 0 to |existing|
      invariant newFormat == Converted(existing[..n])
    {
      assert existing[..n + 1][..n] == existing[..n];
      newFormat := newFormat[existing[n].id := existing[n].value];
    }
    assert existing[..|existing|] == existing;
    ConvertedKeys(existing);
    ConvertedLastValue(existing);
  }
}

=== FILE: statements.dfy ===
/**
 * The SQL text and the bound parameter list that `updateProfileOptions`
 * and `addProfile` build before handing them to the database.  Column
 * names come from the caller's list and are pasted into the text; values
 * are bound to `?` placeholders.
 */
module Statements {
  import opened Values

  /** A statement text and the values bound to its placeholders, in order. */
  datatype Statement = Statement(sql: string, params: seq<Value>)

  /** `Array.prototype.join(sep)` on strings. */
  function Join(parts: seq<string>, sep: string): string {
    if |parts| == 0 then ""
    else if |parts| == 1 then parts[0]
    else parts[0] + sep + Join(parts[1..], sep)
  }

  /**
   * The number of `?` characters in a statement text.  This is a plain
   * character count: a `?` inside a quoted name is counted too, although
   * SQLite reads it as part of that string token and binds nothing to it.
   */
  function Placeholders(s: string): nat {
    if s == [] then 0 else (if s[0] == '?' then 1 else 0) + Placeholders(s[1..])
  }

  /** Placeholders of a concatenation add up. */
  lemma {:induction false} PlaceholdersAppend(a: string, b: string)
    ensures Placeholders(a + b) == Placeholders(a) + Placeholders(b)
  {
    if a != [] {
      assert (a + b)[1..] == a[1..] + b;
      PlaceholdersAppend(a[1..], b);
    } else {
      assert a + b == b;
    }
  }

  /** A text without `?` has no placeholder. */
  lemma {:induction false} NoPlaceholders(s: string)
    requires '?' !in s
    ensures Placeholders(s) == 0
  {
    if s != [] {
      NoPlaceholders(s[1..]);
    }
  }

  /** `options.map((option) => `${option.id} = ?`)`. */
  function SetClauses(options: seq<OptionEntry>): (r: seq<string>)
    ensures |r| == |options|
    ensures forall i :: 0 <= i < |options| ==> r[i] == options[i].id + " = ?"
  {
    seq(|options|, i requires 0 <= i < |options| => options[i].id + " = ?")
  }

  /** The statement `updateProfileOptions(id, title, options)` runs. */
  function UpdateProfileOptions(id: Value, title: string, options: seq<OptionEntry>): (r: Statement)
    ensures |r.params| == |options| + 2
    ensures forall i :: 0 <= i < |options| ==> r.params[i] == options[i].value
    ensures r.params[|options|] == Str(title) && r.params[|options| + 1] == id
  {
    var setStatements := Join(SetClauses(options), ", ");
    var values := seq(|options|, i requires 0 <= i < |options| => options[i].value);
    Statement("UPDATE profiles SET " + setStatements + ", title = ? WHERE id = ?", values + [Str(title), id])
  }

  /** `data.map(element => `'${element.input}'`)`. */
  function QuotedColumns(data: seq<ProfileField>): (r: seq<string>)
    ensures |r| == |data|
    ensures forall i :: 0 <= i < |data| ==> r[i] == "'" + data[i].input + "'"
  {
    seq(|data|, i requires 0 <= i < |data| => "'" + data[i].input + "'")
  }

  /** `Array(n).fill(x)`. */
  function Fill(n: nat, x: string): (r: seq<string>)
    ensures |r| == n && forall i :: 0 <= i < n ==> r[i] == x
  {
    seq(n, _ => x)
  }

  /** The statement `addProfile(title, data)` runs. */
  function AddProfile(title: string, data: seq<ProfileField>): (r: Statement)
    ensures |r.params| == |data| + 1 && r.params[0] == Str(title)
    ensures forall i :: 0 <= i < |data| ==> r.params[i + 1] == data[i].value
  {
    var valuesString := Join(QuotedColumns(data), ", ");
    Statement("INSERT INTO profiles (title, " + valuesString + ") VALUES (?, " + Join(Fill(|data|, "?"), ", ") + ")",
              [Str(title)] + seq(|data|, i requires 0 <= i < |data| => data[i].value))
  }

  /** Placeholders of three concatenated texts add up. */
  lemma PlaceholdersAppend3(a: string, b: string, c: string)
    ensures Placeholders(a + b + c) == Placeholders(a) + Placeholders(b) + Placeholders(c)
  {
    PlaceholdersAppend(a, b);
    PlaceholdersAppend(a + b, c);
  }

  /** A text with one `?` between two `?`-free texts has one placeholder. */
  lemma OneMark(a: string, b: string)
    requires '?' !in a && '?' !in b
    ensures Placeholders(a + "?" + b) == 1
  {
    NoPlaceholders(a);
    NoPlaceholders(b);
    PlaceholdersAppend3(a, "?", b);
  }

  /** Joining parts that each hold `k` placeholders with a separator that holds none gives `k` per part. */
  lemma {:induction false} JoinPlaceholders(parts: seq<string>, sep: string, k: nat)
    requires Placeholders(sep) == 0
    requires forall i :: 0 <= i < |parts| ==> Placeholders(parts[i]) == k
    ensures Placeholders(Join(parts, sep)) == k * |parts|
  {
    if |parts| > 1 {
      JoinPlaceholders(parts[1..], sep, k);
      PlaceholdersAppend3(parts[0], sep, Join(parts[1..], sep));
    }
  }

  /** A text with two `?` among three `?`-free texts has two placeholders. */
  lemma TwoMarks(a: string, b: string, c: string)
    requires '?' !in a && '?' !in b && '?' !in c
    ensures Placeholders(a + "?" + b + "?" + c) == 2
  {
    OneMark(a, b);
    NoPlaceholders(c);
    PlaceholdersAppend3(a + "?" + b, "?", c);
  }

  /** The `?` characters of all parts together. */
  function TotalPlaceholders(parts: seq<string>): nat {
    if parts == [] then 0 else Placeholders(parts[0]) + TotalPlaceholders(parts[1..])
  }

  /** Joining with a separator without `?` keeps exactly the parts' `?` characters. */
  lemma {:induction false} JoinTotalPlaceholders(parts: seq<string>, sep: string)
    requires Placeholders(sep) == 0
    ensures Placeholders(Join(parts, sep)) == TotalPlaceholders(parts)
  {
    if |parts| == 1 {
      assert TotalPlaceholders(parts[1..]) == 0;
    } else if |parts| > 1 {
      JoinTotalPlaceholders(parts[1..], sep);
      PlaceholdersAppend3(parts[0], sep, Join(parts[1..], sep));
    }
  }

  /** The `?` characters inside the option ids. */
  function IdMarks(options: seq<OptionEntry>): nat {
    if options == [] then 0 else Placeholders(options[0].id) + IdMarks(options[1..])
  }

  /** The `?` characters inside the field names. */
  function ColumnMarks(data: seq<ProfileField>): nat {
    if data == [] then 0 else Placeholders(data[0].input) + ColumnMarks(data[1..])
  }

  /** Ids without `?` contribute none. */
  lemma {:induction false} NoIdMarks(options: seq<OptionEntry>)
    requires forall i :: 0 <= i < |options| ==> '?' !in options[i].id
    ensures IdMarks(options) == 0
  {
    if options != [] {
      NoPlaceholders(options[0].id);
      NoIdMarks(options[1..]);
    }
  }

  /** Field names without `?` contribute none. */
  lemma {:induction false} NoColumnMarks(data: seq<ProfileField>)
    requires forall i :: 0 <= i < |data| ==> '?' !in data[i].input
    ensures ColumnMarks(data) == 0
  {
    if data != [] {
      NoPlaceholders(data[0].input);
      NoColumnMarks(data[1..]);
    }
  }

  /** The fixed part of a `SET` clause is one placeholder. */
  lemma ClauseMarkPlaceholders()
    ensures Placeholders(" = ?") == 1
  {
    assert " = ?" == " = " + "?" + "";
    OneMark(" = ", "");
  }

  /** The `SET` clauses hold one placeholder each, plus whatever `?` the ids contain. */
  lemma {:induction false} SetClausesTotal(options: seq<OptionEntry>)
    ensures TotalPlaceholders(SetClauses(options)) == IdMarks(options) + |options|
  {
    if options != [] {
      var parts := SetClauses(options);
      assert parts[1..] == SetClauses(options[1..]);
      SetClausesTotal(options[1..]);
      ClauseMarkPlaceholders();
      PlaceholdersAppend(options[0].id, " = ?");
    }
  }

  /** The quoted column names hold whatever `?` the field names contain. */
  lemma {:induction false} QuotedColumnsTotal(data: seq<ProfileField>)
    ensures TotalPlaceholders(QuotedColumns(data)) == ColumnMarks(data)
  {
    if data != [] {
      var parts := QuotedColumns(data);
      assert parts[1..] == QuotedColumns(data[1..]);
      QuotedColumnsTotal(data[1..]);
      NoPlaceholders("'");
      PlaceholdersAppend3("'", data[0].input, "'");
    }
  }

  /** The fixed tail of the update statement binds the title and the id. */
  lemma UpdateTailPlaceholders()
    ensures Placeholders(", title = ? WHERE id = ?") == 2
  {
    assert ", title = ? WHERE id = ?" == ", title = " + "?" + " WHERE id = " + "?" + "";
    TwoMarks(", title = ", " WHERE id = ", "");
  }

  /**
   * The update statement's `?` characters outnumber its bound values by
   * exactly the `?` characters inside the option ids, which are pasted into
   * the text unquoted.
   */
  lemma UpdatePlaceholdersCount(id: Value, title: string, options: seq<OptionEntry>)
    ensures var r := UpdateProfileOptions(id, title, options);
      Placeholders(r.sql) == |r.params| + IdMarks(options)
  {
    var parts := SetClauses(options);
    SetClausesTotal(options);
    NoPlaceholders(", ");
    JoinTotalPlaceholders(parts, ", ");
    NoPlaceholders("UPDATE profiles SET ");
    UpdateTailPlaceholders();
    PlaceholdersAppend3("UPDATE profiles SET ", Join(parts, ", "), ", title = ? WHERE id = ?");
  }

  /**
   * When no option id contains `?`, the update statement has exactly one
   * placeholder per bound value: one per option, then the title and the id.
   */
  lemma UpdatePlaceholdersMatch(id: Value, title: string, options: seq<OptionEntry>)
    requires forall i :: 0 <= i < |options| ==> '?' !in options[i].id
    ensures var r := UpdateProfileOptions(id, title, options);
      Placeholders(r.sql) == |r.params| == |options| + 2
  {
    UpdatePlaceholdersCount(id, title, options);
    NoIdMarks(options);
  }

  /** The fixed middle of the insert statement binds the title. */
  lemma AddMiddlePlaceholders()
    ensures Placeholders(") VALUES (?, ") == 1
  {
    assert ") VALUES (?, " == ") VALUES (" + "?" + ", ";
    OneMark(") VALUES (", ", ");
  }

  /** `n` question marks joined by commas are `n` placeholders. */
  lemma FilledMarksPlaceholders(n: nat)
    ensures Placeholders(Join(Fill(n, "?"), ", ")) == n
  {
    assert Placeholders("?") == 1;
    NoPlaceholders(", ");
    JoinPlaceholders(Fill(n, "?"), ", ", 1);
  }

  /** A closing parenthesis adds no placeholder. */
  lemma ClosedPlaceholders(x: string)
    ensures Placeholders(x + ")") == Placeholders(x)
  {
    NoPlaceholders(")");
    PlaceholdersAppend(x, ")");
  }

  /** The insert text adds the title's placeholder to those of its column list and value list. */
  lemma InsertTextPlaceholders(columnList: string, markList: string)
    ensures Placeholders("INSERT INTO profiles (title, " + columnList + ") VALUES (?, " + markList + ")")
         == Placeholders(columnList) + 1 + Placeholders(markList)
  {
    var head := "INSERT INTO profiles (title, ";
    ClosedPlaceholders(head + columnList + ") VALUES (?, " + markList);
    NoPlaceholders(head);
    AddMiddlePlaceholders();
    PlaceholdersAppend3(head, columnList, ") VALUES (?, ");
    PlaceholdersAppend(head + columnList + ") VALUES (?, ", markList);
  }

  /**
   * The insert text has one `?` per bound value, plus every `?` inside a
   * field name.  The names are single-quoted, so SQLite itself reads such a
   * `?` as part of the name and binds nothing to it; only this character
   * count is off by it.
   */
  lemma AddPlaceholdersCount(title: string, data: seq<ProfileField>)
    ensures var r := AddProfile(title, data);
      Placeholders(r.sql) == |r.params| + ColumnMarks(data)
  {
    var columns := QuotedColumns(data);
    QuotedColumnsTotal(data);
    NoPlaceholders(", ");
    JoinTotalPlaceholders(columns, ", ");
    FilledMarksPlaceholders(|data|);
    InsertTextPlaceholders(Join(columns, ", "), Join(Fill(|data|, "?"), ", "));
  }

  /**
   * When no field name contains `?`, the insert statement has exactly one
   * `?` per bound value: the title, then one per field.
   */
  lemma AddPlaceholdersMatch(title: string, data: seq<ProfileField>)
    requires forall i :: 0 <= i < |data| ==> '?' !in data[i].input
    ensures var r := AddProfile(title, data);
      Placeholders(r.sql) == |r.params| == |data| + 1
  {
    AddPlaceholdersCount(title, data);
    NoColumnMarks(data);
  }
}

=== FILE: values.dfy ===
/**
 * The JSON-shaped values that travel between the renderer and the main
 * process: option values in the settings document and in profile option
 * lists, and the values bound to SQL placeholders.
 */
module Values {

  /** A JSON value as the settings file and the option lists hold it (integral numbers only). */
  datatype Value = Null | Bool(b: bool) | Num(n: int) | Str(s: string)

  /** JavaScript's ToBoolean: what `!value` negates and what `if (!x)` tests. */
  predicate Truthy(v: Value) {
    match v
    case Null => false
    case Bool(b) => b
    case Num(n) => n != 0
    case Str(s) => s != ""
  }

  /** One `{ id, value }` entry of a profile's option list (`data.options`). */
  datatype OptionEntry = OptionEntry(id: string, value: Value)

  /** One `{ input, value }` entry of the list `addProfile` receives (`data.optionValues`). */
  datatype ProfileField = ProfileField(input: string, value: Value)
}

=== FILE: wrappers.dfy ===
/** The conventional optional value: `None` stands for JavaScript's `undefined` / `null`. */
module Wrappers {
  datatype Option<+T> = None | Some(value: T)
}
